=== FILE: README.md ===
# Kinobot palette engine, modelled in Dafny

This project models the palette engine of kinobot (`kinobot/palette.py`).
The engine pulls a short list of representative colours out of a movie
frame. It trims the too-white tail of that list and renders it as a strip
of coloured tiles attached to the frame. The model covers:

- **Selection** (`selection.dfy`): `get_most_diff`. Each candidate colour
  scores one hit per saved colour whose red channel differs from it by more
  than 10. The scores are sorted in descending order with Python's stable
  sort, and the head is taken. The model keeps that sort (a stable
  insertion sort) and proves its head is the first candidate with the
  highest score. An empty candidate list is the `IndexError` of `[0]`.
- **Extraction** (`extraction.dfy`): `get_colors_alt`, which cuts the image
  into ten vertical slices. It keeps ColorThief's dominant colour of slice 0,
  then applies the greedy rule to each later slice's candidates. It also
  chooses between that extractor and ImageMagick's quantizer (`get_colors`).
  The quantizer is foreign and is represented only by its outcome.
- **Cleaning** (`cleaning.dfy`): `clean_colors`.
- **Geometry** (`geometry.dfy`): Python's `int(a / d)`, which truncates
  toward zero; strip tiles; the sizes `Image.new` accepts.
- **Modern** (`modern.dfy`): `get_palette`. This covers the border, canvas
  and tile layout and the fall-back-to-original control flow. The
  exceptions become an explicit `Result`.
- **Legacy** (`legacy.dfy`): `get_palette_legacy`. This covers the
  ten-colour minimum, the tiling and the bordered canvas.

Images are reduced to their width and height. Colours are `(R, G, B)`
triples of 8-bit channels. The sizes the source derives with floating point
are integer parameters: the border, and the legacy `height_palette`,
`div_palette`, `off_palette`, trim and `borders`. ColorThief's `get_color`
and `get_palette(color_count=100)` are functions of the crop box,
bundled in `SliceThief`.

Where the code and its documented intent differ, the model follows the code:

- `get_palette` pastes the strip at `(0, h)` on a canvas of height `h + b`.
  The strip therefore fills the bottom `b` rows of the canvas. The original
  image sits at `(b, b)`, so the strip covers its last `b` rows. The border
  in the palette's first colour is on the left, right and top.
- `Image.new((new_w, border))` runs outside the `try`. A negative border
  (the wide-image adjustment can produce one) raises a `ValueError`, and
  `except TypeError` would not catch it anyway. So `get_palette` does not
  always fall back to the original image. `ComposeModern` returns
  `Err(NegativeSize(..))` in that case.
- The tiles need not reach the strip's right edge. For a 107-pixel-wide
  image, a 1-pixel border and ten colours, the strip is 109 wide and the
  tiles end at 108 (`StripGapExample`). `StripCoverage` gives the exact
  condition.
- `clean_colors` returns `None`, not its input, for fewer than six colours.
  Its result may have exactly five colours.
- `get_colors_alt` returns exactly ten colours whenever it returns. The
  `is not None` test is always true, and an empty candidate list raises
  instead.
- `get_palette_legacy` does not clean its palette. It does not catch
  extraction errors either.
- The last legacy tile can run past the strip canvas, and `paste` clips
  it. The canvas is `w - int(off_palette * 0.2)` wide, but the last tile
  ends at `9 * div_palette + off_palette`. For a 1000-pixel-wide image that
  is 985 against 982 (`LegacyOverhangExample`). `LegacyTilesInside` gives
  the exact condition for the tiles to fit.
- An image with a zero side is not handed back. Once `get_palette` has a
  palette, `w / h` raises `ZeroDivisionError` for `h == 0` outside any
  `try`. Once `get_palette_legacy` has ten colours, `height / width` and
  `height / divisor` raise it for `w == 0` or `h == 0`. Both return
  `Err(DivisionByZero)` there.

## Model

| member | source | states |
|---|---|---|
| `Colors.BrightCount` | kinobot/palette.py:97-100 | the number of channels above 160 is between 0 and 3; it is 0 exactly when no channel is bright and 3 exactly when all are |
| `Selection.Scores` | kinobot/palette.py:41-47 | one record per candidate, in candidate order, pairing each candidate with its hit count against the saved colours |
| `Selection.Hits` | kinobot/palette.py:43-46 | a candidate's hit count never exceeds the number of saved colours |
| `Selection.HitsExtremes` | kinobot/palette.py:43-46 | the hit count is 0 exactly when no saved colour is more than 10 apart in red, and it equals the number of saved colours exactly when every one is |
| `Selection.InsertByHits` | kinobot/palette.py:49 | one insertion step of the sort adds exactly the inserted record and keeps everything else (multiset equality) |
| `Selection.InsertKeepsSorted` | kinobot/palette.py:49 | inserting into a list sorted by descending hits keeps it sorted |
| `Selection.SortByHits` | kinobot/palette.py:49 | `sorted(..., reverse=True)` returns a permutation of the scores in non-increasing order of hits |
| `Selection.FirstMaxIndex` | kinobot/palette.py:41-49 | an independent linear scan finds the first position holding the maximal hit count |
| `Selection.SortHeadIsFirstMax` | kinobot/palette.py:49 | the head of the stable descending sort is the candidate at the first maximal position, so ties go to the earliest candidate |
| `Selection.FirstMostDiff` | kinobot/palette.py:41-49 | names the position whose hit count is at least every other candidate's and strictly above every earlier one's |
| `Selection.MostDiff` | kinobot/palette.py:36-49 | fails with `IndexError` exactly when there is no candidate; otherwise returns the candidate at the first maximal position with its hit count, which is at most the number of saved colours |
| `Extraction.SliceWidth` | kinobot/palette.py:62-63 | the ten slice widths fit in the image and leave fewer than ten pixels over |
| `Extraction.SliceBox` | kinobot/palette.py:62-67 | crop box `i` spans the full height and is one slice wide; each of the ten boxes lies within the image |
| `Extraction.SliceCandidates` | kinobot/palette.py:66-76 | nine candidate lists, list `i - 1` being ColorThief's palette of slice `i`'s crop box |
| `Extraction.SlicesTile` | kinobot/palette.py:62-67 | the ten crop boxes start at the left edge and span the full height; each is one slice wide; they meet edge to edge in order without overlap and end at `10 * slices <= width` |
| `Extraction.AllGreedyPointwise` | kinobot/palette.py:64-79 | the colour-by-colour greedy property holds exactly when every position after the first holds the greedy pick from its list against the colours before it |
| `Extraction.GreedyStep` | kinobot/palette.py:76-79 | one later loop iteration raises exactly on an empty candidate list; otherwise it keeps the saved colours and appends the greedy pick |
| `Extraction.GreedyExtend` | kinobot/palette.py:76-79 | appending the greedy pick of the next slice keeps every earlier colour the greedy pick of its own slice |
| `Extraction.SomeEmptyIff` | kinobot/palette.py:76-77 | the loop's failure condition, checked list by list, is the same as some list before `k` being empty |
| `Extraction.GreedyRun` | kinobot/palette.py:64-79 | after `k` slice iterations: an error exactly when one of those slices offered no candidate; otherwise `k + 1` colours, starting with the first slice's colour, each later one the greedy pick against the colours before it |
| `Extraction.ColorsAlt` | kinobot/palette.py:52-81 | `get_colors_alt` fails exactly when a slice among 1..9 offers no candidate; otherwise it returns exactly ten colours: slice 0's dominant colour, then each slice's candidate with the most hits against the colours saved before it (ties go to the first) |
| `Extraction.Extract` | kinobot/palette.py:183-184 | the foreign quantizer's outcome is passed through unchanged; the slice extractor is `get_colors_alt`: it fails exactly when a slice among 1..9 offers no candidate, and otherwise yields ten colours, slice 0's dominant colour first and each later one the greedy pick of its slice |
| `Cleaning.FirstTooWhite` | kinobot/palette.py:96-103 | the scan stops at the first colour from the start index on with more than `tolerancy` bright channels, or at the end when there is none |
| `Cleaning.CleanColors` | kinobot/palette.py:84-106 | `None` exactly when there are fewer than six colours; otherwise a prefix of length at least five; every colour from index 5 to the cut has at most `tolerancy` bright channels, and the colour at the cut (if any) has more |
| `Cleaning.CleanDetermined` | kinobot/palette.py:91-106 | the four clauses of `CleanColors` admit exactly one answer |
| `Cleaning.CleanUnchangedIff` | kinobot/palette.py:96-106 | the input comes back unchanged exactly when it has six or more colours and none from index 5 on is too white |
| `Cleaning.CleanIdempotent` | kinobot/palette.py:91-106 | cleaning a cleaned palette again returns it unchanged when it still has six or more colours, and `None` when the cut left five |
| `Geometry.TruncDiv` | kinobot/palette.py:212 | `int(a / d)` rounds toward zero: for `a >= 0` the quotient is the floor, and for `a < 0` it is rounded up, so `q * d` lies between `a` and zero |
| `Modern.Pitch` | kinobot/palette.py:200-201 | `div_palette` is the largest tile width of which `n` fit into `new_w` |
| `Modern.Leftover` | kinobot/palette.py:212 | half the width the first `n - 1` pitches leave of the original width, rounded toward zero (so it is negative when they overshoot by two or more pixels, and 0 for an overshoot of one) |
| `Modern.TileWidth` | kinobot/palette.py:206-220 | every tile is one pitch wide except the last of two or more, which is wider by the leftover |
| `Modern.Tiles` | kinobot/palette.py:204-222 | one tile per colour in palette order; tile `k` starts at `k * div_palette` and has the width of its position |
| `Modern.TilesContiguous` | kinobot/palette.py:204-222 | every tile but the last is one pitch wide and ends exactly where the next begins |
| `Modern.ComposeModern` | kinobot/palette.py:200-229 | the layout raises exactly when the border is negative or, with two or more colours, the last tile's width `div_palette + leftover` is negative; a negative border fails with the negative canvas size `(w + 2b, b)` handed to `Image.new` at :202, and any other error is the last tile's size `(div_palette + leftover, b)` handed to `Image.new` at :213. On success: canvas `(w + 2b) x (h + b)` filled with the first colour; image at `(b, b)`; strip `new_w x b` pasted at `(0, h)`, flush with the bottom; tile `k` has the `k`-th colour and starts at `k * div_palette`; the last of two or more tiles adds the leftover, truncated toward zero, and a lone tile is one pitch wide |
| `Modern.PitchFitsWidth` | kinobot/palette.py:200-212 | when `2 * b * (n - 1) <= w`, the first `n - 1` tiles fit within the original width, so the leftover is not negative |
| `Modern.ComposeModernSucceeds` | kinobot/palette.py:200-216 | a non-negative border with `2 * b * (n - 1) <= w` never makes the layout raise |
| `Modern.StripCoverage` | kinobot/palette.py:201-217 | the tiles reach the strip's right edge exactly when `div_palette - 2b` is at least the remainder `new_w - n * div_palette`, or that difference is -1 and the remainder is 0 |
| `Modern.StripGapExample` | kinobot/palette.py:211-216 | a 107-pixel image with a 1-pixel border and ten colours leaves a one-pixel gap at the strip's right edge |
| `Modern.Decorate` | kinobot/palette.py:189-229 | after extraction: the original comes back exactly when fewer than six colours were found. With six or more, a zero height raises `ZeroDivisionError`; otherwise the result is the layout of the cleaned palette, failing exactly when that layout fails and with that layout's own error |
| `Modern.GetPalette` | kinobot/palette.py:173-232 | a failed extraction returns the original image; after a successful one, the original comes back exactly when fewer than six colours were found. With six or more, a zero height raises `ZeroDivisionError`; otherwise the result is the layout of the cleaned palette, failing exactly when that layout fails and with that layout's own error. Only those two errors escape. A composed picture has one tile per cleaned colour, 5 to `n` of them in extraction order, its border colour is the first, and its canvas is `(w + 2b) x (h + b)` with the strip at `(0, h)` |
| `Modern.SliceDiffComposes` | kinobot/palette.py:182-229 | with the slice extractor, every slice offering a candidate, a non-zero height and `0 <= 18 * b <= w`, `get_palette` always composes a picture |
| `Legacy.GetPaletteLegacy` | kinobot/palette.py:109-170 | extraction errors propagate; `NotEnoughColors(n)` exactly when fewer than ten colours; with ten or more, a zero width or height raises `ZeroDivisionError`, and otherwise the only error is a trim wider than the image, which is the `ValueError` of `Image.new` for the negative strip width; on success tile `k` has the `k`-th colour, starts at `k * div_palette` and is `off_palette` wide; canvas `(w + 2b) x (h + height_palette + 2b)` with the image at `(b, b)`; the bordered strip is pasted at `(b, h)`, aligned with the image's columns and flush with the canvas bottom |
| `Legacy.LegacyTiles` | kinobot/palette.py:135-150 | one tile per colour in palette order; tile `k` starts at `k * div_palette` and is `off_palette` wide |
| `Legacy.LegacyTilesInside` | kinobot/palette.py:135-150 | the tiles lie inside a strip canvas exactly when `(n - 1) * div_palette + off_palette` fits in it |
| `Legacy.LegacyOverhangExample` | kinobot/palette.py:129-150 | a 1000-pixel-wide image with ten colours gets a 982-pixel strip canvas whose last tile ends at 985 |
| `Legacy.LegacyTilesDisjoint` | kinobot/palette.py:135-150 | tiles no wider than the pitch are laid out in order without overlapping; when `n` pitches fit in the strip canvas, every tile lies inside it |

## Left out

- `get_colors` (ImageMagick `quantize` and `unique_colors`) is a foreign call. It is represented only by its outcome (`Strategy.Quantize`). Any exception it raises is an error value.
- ColorThief's `get_color` and `get_palette` are abstract functions of the crop box (`SliceThief`). Exceptions ColorThief itself would raise are not modelled, for example on the empty crops of an image narrower than ten pixels.
- Float-derived sizes are integer inputs, not reproduced with float rounding:
  - the border `int(w * 0.015)`, the wide-image test `w / h > 2.1` and its adjustment `int((w / h) * 4)`;
  - the legacy `divisor`, `height_palette`, `div_palette`, `off_palette`, `int(off_palette * 0.2)` and `borders`.
- Python's true division inside `int(new_w / n)` and `int((...) / 2)` is modelled as exact truncating division. This assumes sizes small enough that float rounding cannot push a quotient across an integer.
- PIL pixel work is out: filling by `Image.new`, the clipping of `paste`, `resize` and `ImageOps.expand`. Only the rectangles they are called with are modelled. A zero height, and a zero width in the legacy layout, stop at a division before PIL is reached. Any `expand` failure on a zero-width image in `get_palette` is not modelled.
- Both `except TypeError: return image` branches are unreachable in the model. Every palette entry is a well-formed RGB triple, so building and pasting the strip cannot raise a `TypeError`.
- Colours with other than three channels (RGBA data from `getdata`) are not modelled.
- `Legacy.GetPaletteLegacy`: the first tile's width `int(div_palette * 0.95)` is the same expression as `off_palette`. The model uses one `tileWidth` input for both.
- Logging, and the unused `leftover` computed in the middle branch of `get_palette`, are ignored.
- `kinobot/discord.py` (Discord command dispatch, the SQLite request queue, randomness, file I/O) is not part of this model.

=== FILE: cleaning.dfy ===
/** `clean_colors`: drop the tail of a palette from the first "too white"
    colour on, never touching the first five colours. */
module Cleaning {
  import opened Wrappers
  import opened Colors

  /** Palettes shorter than this are refused. */
  const MinColors := 6

  /** The scan for too-white colours starts at this index. */
  const KeptPrefix := 5

  /** The default `tolerancy`: a colour is too white with three bright channels. */
  const DefaultTolerancy := 2

  /** The first index at or after `from` whose colour has more than
      `tolerancy` bright channels, or `|colors|` when there is none. */
  function FirstTooWhite(colors: seq<Color>, from: nat, tolerancy: int): (cut: nat)
    requires from <= |colors|
    ensures from <= cut <= |colors|
    ensures forall k :: from <= k < cut ==> BrightCount(colors[k]) <= tolerancy
    ensures cut < |colors| ==> BrightCount(colors[cut]) > tolerancy
    decreases |colors| - from
  {
    if from == |colors| then from
    else if BrightCount(colors[from]) > tolerancy then from
    else FirstTooWhite(colors, from + 1, tolerancy)
  }

  /** `clean_colors(colors, tolerancy)`. */
  function CleanColors(colors: seq<Color>, tolerancy: int): (r: Option<seq<Color>>)
    ensures r.None? <==> |colors| < MinColors
    ensures r.Some? ==> KeptPrefix <= |r.value| <= |colors| && r.value == colors[..|r.value|]
    ensures r.Some? ==> forall k :: KeptPrefix <= k < |r.value| ==> BrightCount(colors[k]) <= tolerancy
    ensures r.Some? && |r.value| < |colors| ==> BrightCount(colors[|r.value|]) > tolerancy
  {
    if |colors| < MinColors then None
    else Some(colors[..FirstTooWhite(colors, KeptPrefix, tolerancy)])
  }

  /** The four clauses of `CleanColors` pin its result down: any answer that
      meets them is the one `clean_colors` returns. */
  lemma CleanDetermined(colors: seq<Color>, tolerancy: int, q: Option<seq<Color>>)
    requires q.None? <==> |colors| < MinColors
    requires q.Some? ==> KeptPrefix <= |q.value| <= |colors| && q.value == colors[..|q.value|]
    requires q.Some? ==> forall k :: KeptPrefix <= k < |q.value| ==> BrightCount(colors[k]) <= tolerancy
    requires q.Some? && |q.value| < |colors| ==> BrightCount(colors[|q.value|]) > tolerancy
    ensures q == CleanColors(colors, tolerancy)
  {
    var r := CleanColors(colors, tolerancy);
    if q.Some? {
      assert |q.value| == |r.value|;
    }
  }

  /** The input comes back unchanged exactly when it is long enough and no
      colour from index 5 on is too white. */
  lemma CleanUnchangedIff(colors: seq<Color>, tolerancy: int)
    ensures CleanColors(colors, tolerancy) == Some(colors) <==>
      |colors| >= MinColors && forall k :: KeptPrefix <= k < |colors| ==> BrightCount(colors[k]) <= tolerancy
  {
    if |colors| >= MinColors && forall k :: KeptPrefix <= k < |colors| ==> BrightCount(colors[k]) <= tolerancy {
      var r := CleanColors(colors, tolerancy).value;
      assert |r| == |colors|;
      assert colors[..|colors|] == colors;
    }
  }

  /** Cleaning a cleaned palette again changes nothing when it still has six
      or more colours, and refuses it when the cut left exactly five. */
  lemma CleanIdempotent(colors: seq<Color>, tolerancy: int)
    requires CleanColors(colors, tolerancy).Some?
    ensures var p := CleanColors(colors, tolerancy).value;
      if |p| >= MinColors then CleanColors(p, tolerancy) == Some(p)
      else CleanColors(p, tolerancy).None?
  {
    var p := CleanColors(colors, tolerancy).value;
    if |p| >= MinColors {
      forall k | KeptPrefix <= k < |p|
        ensures BrightCount(p[k]) <= tolerancy
      {
        assert p[k] == colors[k];
      }
      CleanUnchangedIff(p, tolerancy);
    }
  }
}

=== FILE: colors.dfy ===
/** RGB colours and the two per-colour measures the palette engine uses. */
module Colors {

  /** One 8-bit channel value. */
  type Channel = x: int | 0 <= x < 256

  /** A colour is an (R, G, B) triple; there is no alpha. */
  datatype Color = Color(r: Channel, g: Channel, b: Channel)

  /** Two red channels further apart than this count as different. */
  const RedThreshold := 10

  /** A channel strictly above this level counts as bright. */
  const BrightLevel := 160

  /** The red channels of `a` and `b` differ by more than `RedThreshold`. */
  predicate RedApart(a: Color, b: Color) {
    a.r - b.r > RedThreshold || b.r - a.r > RedThreshold
  }

  /** How many of the three channels of `c` are above `BrightLevel`. */
  function BrightCount(c: Color): (n: nat)
    ensures n <= 3
    ensures n == 0 <==> c.r <= BrightLevel && c.g <= BrightLevel && c.b <= BrightLevel
    ensures n == 3 <==> c.r > BrightLevel && c.g > BrightLevel && c.b > BrightLevel
  {
    (if c.r > BrightLevel then 1 else 0)
    + (if c.g > BrightLevel then 1 else 0)
    + (if c.b > BrightLevel then 1 else 0)
  }
}

=== FILE: errors.dfy ===
/** The exceptions the palette engine can raise, made explicit. */
module Errors {

  datatype PaletteError =
    /** `NotEnoughColors` raised by the legacy composer, with the number found. */
    | NotEnoughColors(found: nat)
    /** `IndexError` from taking `[0]` of an empty candidate list. */
    | EmptyCandidates
    /** `ValueError` from `Image.new` asked for a negative width or height. */
    | NegativeSize(width: int, height: int)
    /** `ZeroDivisionError` from an aspect ratio of an image with a zero side. */
    | DivisionByZero
    /** Any exception raised inside the foreign quantizer. */
    | ExtractionFailed
}

=== FILE: extraction.dfy ===
/** The two colour extractors. `get_colors` is a call into ImageMagick and
    is only represented by its outcome; `get_colors_alt` cuts the image into
    ten vertical slices, keeps the dominant colour of the first and, for each
    later slice, the candidate the greedy rule finds most different. */
module Extraction {
  import opened Wrappers
  import opened Colors
  import opened Errors
  import opened Selection
  import opened Geometry

  /** Number of vertical slices `get_colors_alt` cuts the image into. */
  const SliceCount := 10

  /** A PIL crop box: left, upper, right and lower edges. */
  datatype Box = Box(left: int, upper: int, right: int, lower: int)

  /** ColorThief run on a cropped slice, as a function of the crop box:
      `dominant` is `get_color()`, `candidates` is `get_palette(color_count=100)`. */
  datatype SliceThief = SliceThief(dominant: Box -> Color, candidates: Box -> seq<Color>)

  /** Which extractor to run: the outcome of the foreign quantizer, or the
      slice-based extractor with its ColorThief. */
  datatype Strategy = Quantize(quantized: Result<seq<Color>, PaletteError>) | SliceDiff(thief: SliceThief)

  /** `int(width / 10)`: the width of one slice. */
  function SliceWidth(width: nat): (s: nat)
    ensures SliceCount * s <= width < SliceCount * s + SliceCount
  {
    width / SliceCount
  }

  /** The crop box of slice `i`. */
  function SliceBox(width: nat, height: nat, i: nat): (b: Box)
    ensures b.upper == 0 && b.lower == height
    ensures b.right - b.left == SliceWidth(width)
    ensures i < SliceCount ==> 0 <= b.left && b.right <= width
  {
    var s := SliceWidth(width);
    Box(i * s, 0, s + i * s, height)
  }

  /** The ten slices span the full height, start at the left edge, meet edge
      to edge in order without overlapping, and end at `10 * slices`, no
      further right than the image and less than ten pixels short of it. */
  lemma {:induction false} SlicesTile(width: nat, height: nat)
    ensures SliceBox(width, height, 0).left == 0
    ensures forall i :: 0 <= i < SliceCount ==>
      SliceBox(width, height, i).upper == 0 && SliceBox(width, height, i).lower == height
      && SliceBox(width, height, i).right - SliceBox(width, height, i).left == SliceWidth(width)
    ensures forall i :: 0 <= i < SliceCount - 1 ==>
      SliceBox(width, height, i).right == SliceBox(width, height, i + 1).left
    ensures forall i, j :: 0 <= i < j < SliceCount ==>
      SliceBox(width, height, i).right <= SliceBox(width, height, j).left
    ensures SliceBox(width, height, SliceCount - 1).right <= width < SliceBox(width, height, SliceCount - 1).right + SliceCount
  {
    var s := SliceWidth(width);
    forall i | 0 <= i < SliceCount - 1
      ensures SliceBox(width, height, i).right == SliceBox(width, height, i + 1).left
    {
      assert (i + 1) * s == s + i * s;
    }
    forall i, j | 0 <= i < j < SliceCount
      ensures SliceBox(width, height, i).right <= SliceBox(width, height, j).left
    {
      MulMonotone(s, i + 1, j);
      assert s * (i + 1) == s + i * s;
    }
    assert (SliceCount - 1) * s + s == SliceCount * s;
  }

  /** The greedy step holds at position `i`: `pick` is the candidate the
      greedy rule selects from `candidates` against the colours in `saved`. */
  predicate GreedyPick(saved: seq<Color>, candidates: seq<Color>, pick: Color) {
    |candidates| > 0 && pick == candidates[FirstMostDiff(saved, candidates)]
  }

  /** Some list among the first `k` is empty. */
  predicate SomeEmpty(lists: seq<seq<Color>>, k: nat)
    requires k <= |lists|
  {
    k > 0 && (SomeEmpty(lists, k - 1) || |lists[k - 1]| == 0)
  }

  /** `SomeEmpty` holds exactly when a list before `k` is empty. */
  lemma {:induction false} SomeEmptyIff(lists: seq<seq<Color>>, k: nat)
    requires k <= |lists|
    ensures SomeEmpty(lists, k) <==> exists i :: 0 <= i < k && |lists[i]| == 0
  {
    if k > 0 {
      SomeEmptyIff(lists, k - 1);
      if |lists[k - 1]| == 0 {
        assert 0 <= k - 1 < k && |lists[k - 1]| == 0;
      }
    }
  }

  /** Every colour of `saved` after the first is the greedy pick from the
      candidate list before it, against the colours saved earlier; stated
      one colour at a time, from the last back. */
  predicate AllGreedy(saved: seq<Color>, lists: seq<seq<Color>>)
    decreases |saved|
  {
    && |saved| <= |lists| + 1
    && (|saved| <= 1 ||
        (&& AllGreedy(saved[..|saved| - 1], lists)
         && GreedyPick(saved[..|saved| - 1], lists[|saved| - 2], saved[|saved| - 1])))
  }

  /** Every position of a greedy run holds its greedy pick. */
  lemma {:induction false} AllGreedyPicks(saved: seq<Color>, lists: seq<seq<Color>>)
    requires AllGreedy(saved, lists)
    ensures forall i :: 1 <= i < |saved| ==> GreedyPick(saved[..i], lists[i - 1], saved[i])
    decreases |saved|
  {
    if |saved| > 1 {
      var init := saved[..|saved| - 1];
      AllGreedyPicks(init, lists);
      forall i | 1 <= i < |saved|
        ensures GreedyPick(saved[..i], lists[i - 1], saved[i])
      {
        if i < |init| {
          assert saved[..i] == init[..i] && saved[i] == init[i];
        }
      }
    }
  }

  /** Colours that hold their greedy pick at every position form a greedy run. */
  lemma {:induction false} PicksAllGreedy(saved: seq<Color>, lists: seq<seq<Color>>)
    requires |saved| <= |lists| + 1
    requires forall i :: 1 <= i < |saved| ==> GreedyPick(saved[..i], lists[i - 1], saved[i])
    ensures AllGreedy(saved, lists)
    decreases |saved|
  {
    if |saved| > 1 {
      var init := saved[..|saved| - 1];
      forall i | 1 <= i < |init|
        ensures GreedyPick(init[..i], lists[i - 1], init[i])
      {
        assert saved[..i] == init[..i] && saved[i] == init[i];
      }
      PicksAllGreedy(init, lists);
      assert GreedyPick(saved[..|saved| - 1], lists[|saved| - 2], saved[|saved| - 1]);
    }
  }

  /** `AllGreedy` says the same as asking every position for its greedy pick. */
  lemma AllGreedyPointwise(saved: seq<Color>, lists: seq<seq<Color>>)
    ensures AllGreedy(saved, lists) <==>
      && |saved| <= |lists| + 1
      && forall i :: 1 <= i < |saved| ==> GreedyPick(saved[..i], lists[i - 1], saved[i])
  {
    if AllGreedy(saved, lists) {
      AllGreedyPicks(saved, lists);
    }
    if |saved| <= |lists| + 1 && forall i :: 1 <= i < |saved| ==> GreedyPick(saved[..i], lists[i - 1], saved[i]) {
      PicksAllGreedy(saved, lists);
    }
  }

  /** Extending the saved colours by the greedy pick for the next list keeps
      the greedy property and the first colour. */
  lemma GreedyExtend(lists: seq<seq<Color>>, saved: seq<Color>, next: seq<Color>)
    requires 1 <= |saved| <= |lists|
    requires AllGreedy(saved, lists)
    requires |next| == |saved| + 1 && next[..|saved|] == saved
    requires GreedyPick(saved, lists[|saved| - 1], next[|saved|])
    ensures AllGreedy(next, lists) && next[0] == saved[0]
  {
    assert next[0] == next[..|saved|][0];
  }

  /** One later iteration of the slice loop: pick the most different
      candidate and append its colour, or raise on an empty list. */
  function GreedyStep(saved: seq<Color>, candidates: seq<Color>): (r: Result<seq<Color>, PaletteError>)
    ensures r.Err? <==> |candidates| == 0
    ensures r.Err? ==> r.error == EmptyCandidates
    ensures r.Ok? ==>
      && |r.value| == |saved| + 1 && r.value[..|saved|] == saved
      && GreedyPick(saved, candidates, r.value[|saved|])
  {
    var pick := MostDiff(saved, candidates);
    if pick.Err? then Err(EmptyCandidates)
    else
      var next := saved + [pick.value.color];
      assert next[..|saved|] == saved;
      Ok(next)
  }

  /** One more iteration after `k - 1` successful ones keeps the loop's
      contract: it fails exactly on an empty `k`-th list, and otherwise the
      colours grow by the greedy pick. */
  lemma GreedyRunStep(first: Color, lists: seq<seq<Color>>, k: nat, prev: seq<Color>, next: Result<seq<Color>, PaletteError>)
    requires 1 <= k <= |lists|
    requires !SomeEmpty(lists, k - 1)
    requires |prev| == k && prev[0] == first && AllGreedy(prev, lists)
    requires next == GreedyStep(prev, lists[k - 1])
    ensures next.Err? <==> SomeEmpty(lists, k)
    ensures next.Err? ==> next.error == EmptyCandidates
    ensures next.Ok? ==> |next.value| == k + 1 && next.value[0] == first
    ensures next.Ok? ==> AllGreedy(next.value, lists)
  {
    if next.Ok? {
      GreedyExtend(lists, prev, next.value);
    }
  }

  /** The body of the slice loop run over the first `k` candidate lists,
      starting from the saved colour `first`. */
  function GreedyRun(first: Color, lists: seq<seq<Color>>, k: nat): (r: Result<seq<Color>, PaletteError>)
    requires k <= |lists|
    ensures r.Err? <==> SomeEmpty(lists, k)
    ensures r.Err? ==> r.error == EmptyCandidates
    ensures r.Ok? ==> |r.value| == k + 1 && r.value[0] == first
    ensures r.Ok? ==> AllGreedy(r.value, lists)
  {
    if k == 0 then Ok([first])
    else
      var prev := GreedyRun(first, lists, k - 1);
      if prev.Err? then prev
      else
        var next := GreedyStep(prev.value, lists[k - 1]);
        GreedyRunStep(first, lists, k, prev.value, next);
        next
  }

  /** The candidate lists of slices 1 to 9, in slice order. */
  function SliceCandidates(width: nat, height: nat, thief: SliceThief): (lists: seq<seq<Color>>)
    ensures |lists| == SliceCount - 1
    ensures forall i :: 1 <= i < SliceCount ==> lists[i - 1] == thief.candidates(SliceBox(width, height, i))
  {
    seq(SliceCount - 1, i requires 0 <= i < SliceCount - 1 => thief.candidates(SliceBox(width, height, i + 1)))
  }

  /** `get_colors_alt`: exactly ten colours, the first the dominant colour of
      slice 0 and each later one the greedy pick of its slice, unless some
      slice offers no candidate, in which case `get_most_diff` raises. */
  function ColorsAlt(width: nat, height: nat, thief: SliceThief): (r: Result<seq<Color>, PaletteError>)
    ensures r.Err? <==> exists i :: 1 <= i < SliceCount && |thief.candidates(SliceBox(width, height, i))| == 0
    ensures r.Err? ==> r.error == EmptyCandidates
    ensures r.Ok? ==> |r.value| == SliceCount && r.value[0] == thief.dominant(SliceBox(width, height, 0))
    ensures r.Ok? ==> forall i :: 1 <= i < SliceCount ==>
      GreedyPick(r.value[..i], thief.candidates(SliceBox(width, height, i)), r.value[i])
  {
    var lists := SliceCandidates(width, height, thief);
    var first := thief.dominant(SliceBox(width, height, 0));
    EmptyListIsEmptySlice(width, height, thief);
    SomeEmptyIff(lists, SliceCount - 1);
    var r := GreedyRun(first, lists, SliceCount - 1);
    if r.Ok? then AllGreedyPointwise(r.value, lists); r else r
  }

  /** An empty candidate list is the list of an empty slice, and back. */
  lemma EmptyListIsEmptySlice(width: nat, height: nat, thief: SliceThief)
    ensures var lists := SliceCandidates(width, height, thief);
      (exists i :: 0 <= i < SliceCount - 1 && |lists[i]| == 0) <==>
      (exists i :: 1 <= i < SliceCount && |thief.candidates(SliceBox(width, height, i))| == 0)
  {
    var lists := SliceCandidates(width, height, thief);
    if exists i :: 0 <= i < SliceCount - 1 && |lists[i]| == 0 {
      var i :| 0 <= i < SliceCount - 1 && |lists[i]| == 0;
      assert |thief.candidates(SliceBox(width, height, i + 1))| == 0;
    }
    if exists i :: 1 <= i < SliceCount && |thief.candidates(SliceBox(width, height, i))| == 0 {
      var i :| 1 <= i < SliceCount && |thief.candidates(SliceBox(width, height, i))| == 0;
      assert |lists[i - 1]| == 0;
    }
  }

  /** The colours the chosen extractor yields, or the exception it raises. */
  function Extract(width: nat, height: nat, strategy: Strategy): (r: Result<seq<Color>, PaletteError>)
    ensures strategy.Quantize? ==> r == strategy.quantized
    ensures strategy.SliceDiff? ==> r == ColorsAlt(width, height, strategy.thief)
    ensures strategy.SliceDiff? ==>
      (r.Err? <==> exists i :: 1 <= i < SliceCount && |strategy.thief.candidates(SliceBox(width, height, i))| == 0)
    ensures strategy.SliceDiff? && r.Ok? ==>
      && |r.value| == SliceCount
      && r.value[0] == strategy.thief.dominant(SliceBox(width, height, 0))
      && forall i :: 1 <= i < SliceCount ==>
           GreedyPick(r.value[..i], strategy.thief.candidates(SliceBox(width, height, i)), r.value[i])
  {
    match strategy
    case Quantize(q) => q
    case SliceDiff(thief) => ColorsAlt(width, height, thief)
  }
}

=== FILE: geometry.dfy ===
/** Integer helpers for the strip layouts: Python's truncating `int(a / d)`
    and the coloured tiles a strip is built from. */
module Geometry {
  import opened Colors

  /** `int(a / d)` for a positive divisor: true division, then truncation
      toward zero (not floor): for a negative `a` the quotient is rounded up,
      so `q * d` always lies between `a` and zero. */
  function TruncDiv(a: int, d: int): (q: int)
    requires d > 0
    ensures a >= 0 ==> 0 <= q && q * d <= a < q * d + d
    ensures a < 0 ==> a <= q * d < a + d && q <= 0
  {
    if a >= 0 then
      DivBounds(a, d);
      a / d
    else
      DivBounds(-a, d);
      NegMul((-a) / d, d);
      -((-a) / d)
  }

  lemma DivBounds(n: nat, d: int)
    requires d > 0
    ensures 0 <= n / d && (n / d) * d <= n < (n / d) * d + d
  {
    assert n == (n / d) * d + n % d;
  }

  lemma NegMul(m: int, d: int)
    ensures (-m) * d == -(m * d)
  {
  }

  /** Multiplying by a non-negative factor keeps order. */
  lemma MulMonotone(k: int, a: int, b: int)
    requires k >= 0 && a <= b
    ensures k * a <= k * b
  {
    assert k * b - k * a == k * (b - a);
  }

  /** A positive factor can be cancelled from both sides of `<=`. */
  lemma MulCancel(k: int, a: int, b: int)
    requires k > 0 && k * a <= k * b
    ensures a <= b
  {
    assert k * (b - a) == k * b - k * a;
  }

  /** A solid-coloured tile of a palette strip: its left edge, its width
      and its colour. Every tile spans the strip's full height. */
  datatype Tile = Tile(x: int, width: int, color: Color)

  /** A size `Image.new` accepts: neither side negative. */
  predicate ValidSize(width: int, height: int) {
    width >= 0 && height >= 0
  }
}

=== FILE: legacy.dfy ===
/** `get_palette_legacy`: the old layout. It demands ten colours, tiles
    them at a fixed pitch on a white strip, stretches the strip to the image
    width and pastes it, with a white border, under the white-bordered image. */
module Legacy {
  import opened Wrappers
  import opened Colors
  import opened Errors
  import opened Geometry
  import opened Extraction

  /** Fewer colours than this raise `NotEnoughColors`. */
  const MinLegacyColors := 10

  /** The sizes the legacy layout derives with floating point, as integers:
      `height_palette`, `div_palette` (the pitch), `off_palette` (the width
      of every tile: the first tile's `int(div_palette * 0.95)` is the same
      expression), `int(off_palette * 0.2)` (the strip canvas's trim) and
      `borders`. */
  datatype LegacyScale = LegacyScale(stripHeight: nat, pitch: nat, tileWidth: nat, trim: nat, border: nat)

  /** The legacy picture: the white-bordered canvas and where the original
      sits on it; the white strip canvas `bg` and its tiles; and the band
      (the strip resized to the image width with a white border above and
      below) and where it is pasted. */
  datatype LegacyFrame = LegacyFrame(
    canvasWidth: int, canvasHeight: int, imageX: int, imageY: int,
    stripCanvasWidth: int, stripHeight: int, tiles: seq<Tile>,
    bandX: int, bandY: int, bandWidth: int, bandHeight: int)

  /** The tiles: tile `k` at `k * pitch`, all `tileWidth` wide. */
  function LegacyTiles(palette: seq<Color>, scale: LegacyScale): (tiles: seq<Tile>)
    ensures |tiles| == |palette|
    ensures forall k :: 0 <= k < |tiles| ==>
      tiles[k].color == palette[k] && tiles[k].x == k * scale.pitch && tiles[k].width == scale.tileWidth
  {
    seq(|palette|, k requires 0 <= k < |palette| => Tile(k * scale.pitch, scale.tileWidth, palette[k]))
  }

  /** `get_palette_legacy`. Extraction errors are not caught here, a short
      palette raises `NotEnoughColors`, the aspect ratio of an image with a
      zero side raises `ZeroDivisionError`, and a negative strip width handed
      to `Image.new` raises `ValueError`. */
  function GetPaletteLegacy(w: nat, h: nat, strategy: Strategy, scale: LegacyScale): (r: Result<LegacyFrame, PaletteError>)
    ensures Extract(w, h, strategy).Err? ==> r == Err(Extract(w, h, strategy).error)
    ensures Extract(w, h, strategy).Ok? ==>
      var n := |Extract(w, h, strategy).value|;
      && (r.Err? && r.error.NotEnoughColors? <==> n < MinLegacyColors)
      && (r.Err? && r.error.NotEnoughColors? ==> r.error.found == n)
      && (n >= MinLegacyColors ==> (r.Err? <==> w == 0 || h == 0 || scale.trim > w))
      && (n >= MinLegacyColors && (w == 0 || h == 0) ==> r == Err(DivisionByZero))
      && (n >= MinLegacyColors && w > 0 && h > 0 && scale.trim > w ==>
            r == Err(NegativeSize(w - scale.trim, scale.stripHeight)))
      && (r.Err? && r.error.NegativeSize? ==> r.error.width < 0)
    ensures r.Ok? ==>
      var colors := Extract(w, h, strategy).value;
      var f := r.value;
      && Extract(w, h, strategy).Ok? && w > 0 && h > 0
      && |f.tiles| == |colors| >= MinLegacyColors
      && (forall k :: 0 <= k < |f.tiles| ==>
            f.tiles[k].color == colors[k] && f.tiles[k].x == k * scale.pitch && f.tiles[k].width == scale.tileWidth)
      && f.stripCanvasWidth == w - scale.trim >= 0 && f.stripHeight == scale.stripHeight
      && f.canvasWidth == w + 2 * scale.border
      && f.canvasHeight == h + scale.stripHeight + 2 * scale.border
      && f.imageX == scale.border && f.imageY == scale.border
      && f.bandX == f.imageX && f.bandWidth == w
      && f.bandY == h && f.bandY + f.bandHeight == f.canvasHeight
  {
    var colors := Extract(w, h, strategy);
    if colors.Err? then Err(colors.error)
    else if |colors.value| < MinLegacyColors then Err(NotEnoughColors(|colors.value|))
    else if w == 0 || h == 0 then Err(DivisionByZero)
    else if !ValidSize(w - scale.trim, scale.stripHeight) then Err(NegativeSize(w - scale.trim, scale.stripHeight))
    else
      var b := scale.border;
      Ok(LegacyFrame(
        w + 2 * b, h + scale.stripHeight + 2 * b, b, b,
        w - scale.trim, scale.stripHeight, LegacyTiles(colors.value, scale),
        b, h, w, scale.stripHeight + 2 * b))
  }

  /** When a tile is no wider than the pitch, the tiles are laid left to
      right without overlapping; when the `n` pitches also fit the strip
      canvas, every tile lies inside it. */
  lemma {:induction false} LegacyTilesDisjoint(palette: seq<Color>, scale: LegacyScale, stripWidth: int)
    requires scale.tileWidth <= scale.pitch
    ensures var tiles := LegacyTiles(palette, scale);
      forall j, k :: 0 <= j < k < |tiles| ==> tiles[j].x + tiles[j].width <= tiles[k].x
    ensures |palette| * scale.pitch <= stripWidth ==>
      var tiles := LegacyTiles(palette, scale);
      forall k :: 0 <= k < |tiles| ==> 0 <= tiles[k].x && tiles[k].x + tiles[k].width <= stripWidth
  {
    var tiles := LegacyTiles(palette, scale);
    var p := scale.pitch;
    forall j, k | 0 <= j < k < |tiles|
      ensures tiles[j].x + tiles[j].width <= tiles[k].x
    {
      MulMonotone(p, j + 1, k);
      assert p * (j + 1) == j * p + p;
    }
    if |palette| * p <= stripWidth {
      forall k | 0 <= k < |tiles|
        ensures 0 <= tiles[k].x && tiles[k].x + tiles[k].width <= stripWidth
      {
        MulMonotone(p, k + 1, |palette|);
        MulMonotone(p, 0, k);
        assert p * (k + 1) == k * p + p;
      }
    }
  }

  /** The tiles lie inside a strip canvas `stripWidth` wide exactly when the
      last one does: when `(n - 1)` pitches and one tile width fit. */
  lemma {:induction false} LegacyTilesInside(palette: seq<Color>, scale: LegacyScale, stripWidth: int)
    requires |palette| > 0
    ensures var tiles := LegacyTiles(palette, scale);
      (forall k :: 0 <= k < |tiles| ==> 0 <= tiles[k].x && tiles[k].x + tiles[k].width <= stripWidth)
      <==> (|palette| - 1) * scale.pitch + scale.tileWidth <= stripWidth
  {
    var tiles := LegacyTiles(palette, scale);
    var n := |palette|;
    if (n - 1) * scale.pitch + scale.tileWidth <= stripWidth {
      forall k | 0 <= k < n
        ensures 0 <= tiles[k].x && tiles[k].x + tiles[k].width <= stripWidth
      {
        MulMonotone(scale.pitch, k, n - 1);
        MulMonotone(scale.pitch, 0, k);
      }
    } else {
      assert tiles[n - 1].x + tiles[n - 1].width > stripWidth;
    }
  }

  /** A 1000-pixel-wide image with ten colours: `div_palette` is 99,
      `off_palette` 94 and the trim 18, so the strip canvas is 982 wide while
      the last tile ends at 985; `paste` clips it. */
  lemma LegacyOverhangExample()
    ensures var r := GetPaletteLegacy(1000, 562, Quantize(Ok(seq(10, _ => Color(0, 0, 0)))), LegacyScale(181, 99, 94, 18, 6));
      r.Ok? && r.value.stripCanvasWidth == 982 && r.value.tiles[9].x + r.value.tiles[9].width == 985
  {
    var tiles := LegacyTiles(seq(10, _ => Color(0, 0, 0)), LegacyScale(181, 99, 94, 18, 6));
    assert tiles[9] == Tile(891, 94, Color(0, 0, 0));
  }
}

=== FILE: modern.dfy ===
/** `get_palette`: the default, border-aware layout. The image gets a border
    of the palette's first colour on the left, right and top, and a strip of
    one tile per palette colour, as high as the border, is pasted at the
    bottom of the enlarged canvas. */
module Modern {
  import opened Wrappers
  import opened Colors
  import opened Errors
  import opened Geometry
  import opened Cleaning
  import opened Extraction

  /** The palette strip: `new_w` wide, `border` high, tiled left to right. */
  datatype Strip = Strip(width: int, height: int, tiles: seq<Tile>)

  /** The composited picture: the canvas `ImageOps.expand` produces, the
      colour it fills the border with, where the original image sits on it,
      and the strip with the point it is pasted at. */
  datatype Frame = Frame(
    canvasWidth: int, canvasHeight: int, fill: Color,
    imageX: int, imageY: int,
    strip: Strip, stripX: int, stripY: int)

  /** What `get_palette` returns when it does not raise: the input image
      untouched, or the composited picture. */
  datatype Rendered = Unchanged | Composed(frame: Frame)

  /** `div_palette`: the widest whole tile width of which `n` fit in the strip. */
  function Pitch(stripWidth: nat, n: nat): (p: nat)
    requires n > 0
    ensures n * p <= stripWidth < n * p + n
  {
    TruncDiv(stripWidth, n)
  }

  /** `leftover` of the last tile: half, truncated toward zero, of what the
      first `n - 1` tiles leave of the original width `w`. */
  function Leftover(w: nat, n: nat, pitch: nat): (left: int)
    ensures var spare := w - pitch * (n - 1);
      && (spare >= 0 ==> 0 <= spare - 2 * left <= 1)
      && (spare < 0 ==> -1 <= spare - 2 * left <= 0)
  {
    TruncDiv(w - pitch * (n - 1), 2)
  }

  /** Width of tile `k`: the first and the middle tiles are one pitch wide,
      the last one (when it is not also the first) adds the leftover. */
  function TileWidth(w: nat, n: nat, pitch: nat, k: nat): (width: int)
    ensures k == 0 || k != n - 1 ==> width == pitch
    ensures k != 0 && k == n - 1 ==> width - pitch == Leftover(w, n, pitch)
  {
    if k != 0 && k == n - 1 then pitch + Leftover(w, n, pitch) else pitch
  }

  /** `div_palette + leftover` for a non-negative border: the width the last
      of two or more tiles is created with. */
  function LastTileWidth(w: nat, n: nat, border: nat): (width: int)
    requires n > 0
    ensures n > 1 ==> width == TileWidth(w, n, Pitch(w + 2 * border, n), n - 1)
  {
    var p := Pitch(w + 2 * border, n);
    p + Leftover(w, n, p)
  }

  /** The tiles of the strip, laid one pitch apart from the left edge. */
  function Tiles(w: nat, palette: seq<Color>, pitch: nat): (tiles: seq<Tile>)
    ensures |tiles| == |palette|
    ensures forall k :: 0 <= k < |tiles| ==>
      tiles[k].color == palette[k] && tiles[k].x == k * pitch && tiles[k].width == TileWidth(w, |palette|, pitch, k)
  {
    seq(|palette|, k requires 0 <= k < |palette| => Tile(k * pitch, TileWidth(w, |palette|, pitch, k), palette[k]))
  }

  /** Each tile but the last is one pitch wide and ends where the next begins. */
  lemma TilesContiguous(w: nat, palette: seq<Color>, pitch: nat)
    ensures var tiles := Tiles(w, palette, pitch);
      forall k :: 0 <= k < |tiles| - 1 ==> tiles[k].width == pitch && tiles[k].x + tiles[k].width == tiles[k + 1].x
  {
    var tiles := Tiles(w, palette, pitch);
    forall k | 0 <= k < |tiles| - 1
      ensures tiles[k].width == pitch && tiles[k].x + tiles[k].width == tiles[k + 1].x
    {
      assert (k + 1) * pitch == k * pitch + pitch;
    }
  }

  /** Everything the layout needs about its tiles: which of them can be
      negative, and the widths, positions and colours of all of them. */
  lemma TilesLayout(w: nat, palette: seq<Color>, pitch: nat)
    requires |palette| > 0
    ensures var tiles := Tiles(w, palette, pitch);
      var n := |palette|;
      && |tiles| == n
      && (tiles[n - 1].width < 0 <==> n > 1 && pitch + TruncDiv(w - pitch * (n - 1), 2) < 0)
      && (n > 1 ==> tiles[n - 1].width == pitch + TruncDiv(w - pitch * (n - 1), 2))
      && (n == 1 ==> tiles[0].width == pitch)
      && (tiles[n - 1].width >= 0 ==>
            forall k :: 0 <= k < n ==> tiles[k].color == palette[k] && tiles[k].x == k * pitch && tiles[k].width >= 0)
      && (forall k :: 0 <= k < n - 1 ==> tiles[k].width == pitch && tiles[k].x + tiles[k].width == tiles[k + 1].x)
  {
    TilesContiguous(w, palette, pitch);
  }

  /** The layout part of `get_palette` for a non-empty cleaned palette and
      an integer border; a negative size handed to `Image.new` raises a
      `ValueError` that the `except TypeError` does not catch. */
  function ComposeModern(w: nat, h: nat, palette: seq<Color>, border: int): (r: Result<Frame, PaletteError>)
    requires |palette| > 0
    ensures border < 0 ==> r == Err(NegativeSize(w + 2 * border, border))
    ensures r.Err? <==> (border < 0 || (|palette| > 1 && LastTileWidth(w, |palette|, border) < 0))
    ensures r.Err? ==> r.error.NegativeSize? && (r.error.width < 0 || r.error.height < 0)
    ensures r.Err? && border >= 0 ==>
      |palette| > 1 && r == Err(NegativeSize(LastTileWidth(w, |palette|, border), border))
    ensures r.Ok? ==> border >= 0
    ensures r.Ok? ==>
      var f := r.value;
      && f.canvasWidth == w + 2 * border && f.canvasHeight == h + border
      && f.fill == palette[0] && f.imageX == border && f.imageY == border
      && f.strip.width == f.canvasWidth && f.strip.height == border
      && f.stripX == 0 && f.stripY == h && f.stripY + f.strip.height == f.canvasHeight
    ensures r.Ok? ==>
      var tiles := r.value.strip.tiles;
      var p := Pitch(w + 2 * border, |palette|);
      && |tiles| == |palette|
      && (forall k :: 0 <= k < |tiles| ==> tiles[k].color == palette[k] && tiles[k].x == k * p && tiles[k].width >= 0)
      && (forall k :: 0 <= k < |tiles| - 1 ==> tiles[k].width == p && tiles[k].x + tiles[k].width == tiles[k + 1].x)
      && (|tiles| > 1 ==> tiles[|tiles| - 1].width == p + TruncDiv(w - p * (|tiles| - 1), 2))
      && (|tiles| == 1 ==> tiles[0].width == p)
  {
    var n := |palette|;
    var newWidth := w + 2 * border;
    if !ValidSize(newWidth, border) then Err(NegativeSize(newWidth, border))
    else
      var pitch := Pitch(newWidth, n);
      var tiles := Tiles(w, palette, pitch);
      TilesLayout(w, palette, pitch);
      if tiles[n - 1].width < 0 then Err(NegativeSize(tiles[n - 1].width, border))
      else
        Ok(Frame(newWidth, h + border, palette[0], border, border, Strip(newWidth, border, tiles), 0, h))
  }

  /** The first `n - 1` tiles never reach past the original width once the
      border is small enough: `2 * border * (n - 1) <= w`. */
  lemma {:induction false} PitchFitsWidth(w: nat, n: nat, border: nat)
    requires n > 0
    requires 2 * border * (n - 1) <= w
    ensures Pitch(w + 2 * border, n) * (n - 1) <= w
  {
    var p := Pitch(w + 2 * border, n);
    var m := p * (n - 1);
    var total := w + 2 * border;
    assert n * m == (n - 1) * (n * p);
    MulMonotone(n - 1, n * p, total);
    assert (n - 1) * total == (n - 1) * w + 2 * border * (n - 1);
    assert (n - 1) * w + w == n * w;
    MulCancel(n, m, w);
  }

  /** A non-negative border that is small next to the image never makes
      `Image.new` raise: the layout succeeds. The default border
      `int(w * 0.015)` meets the bound for palettes of up to 34 colours. */
  lemma {:induction false} ComposeModernSucceeds(w: nat, h: nat, palette: seq<Color>, border: int)
    requires |palette| > 0 && border >= 0
    requires 2 * border * (|palette| - 1) <= w
    ensures ComposeModern(w, h, palette, border).Ok?
  {
    var n := |palette|;
    var p := Pitch(w + 2 * border, n);
    PitchFitsWidth(w, n, border);
    assert w - p * (n - 1) >= 0;
    assert Leftover(w, n, p) >= 0;
    assert Tiles(w, palette, p)[n - 1].width >= 0;
  }

  /** The right edge of the strip's last tile. */
  function StripEnd(f: Frame): int
    requires |f.strip.tiles| > 0
  {
    var last := f.strip.tiles[|f.strip.tiles| - 1];
    last.x + last.width
  }

  /** The tiles reach the strip's right edge exactly when the pitch, less
      twice the border, is at least the remainder `new_w - n * pitch` (or in
      the one corner case where that difference is -1 and nothing remains).
      Whenever they do not, a band of the white background is left over. */
  lemma {:induction false} StripCoverage(w: nat, h: nat, palette: seq<Color>, border: int)
    requires |palette| > 1
    requires ComposeModern(w, h, palette, border).Ok?
    ensures var f := ComposeModern(w, h, palette, border).value;
      var n := |palette|;
      var p := Pitch(w + 2 * border, n);
      var rest := w + 2 * border - n * p;
      StripEnd(f) >= f.strip.width <==> p - 2 * border >= rest || (rest == 0 && p - 2 * border == -1)
  {
    var f := ComposeModern(w, h, palette, border).value;
    var n := |palette|;
    var p := Pitch(w + 2 * border, n);
    var rest := w + 2 * border - n * p;
    var spare := w - p * (n - 1);
    assert spare == p + rest - 2 * border;
    assert StripEnd(f) == (n - 1) * p + p + TruncDiv(spare, 2);
    assert (n - 1) * p + p == n * p;
  }

  /** A 107-pixel-wide image with a one-pixel border and ten colours: the
      strip is 109 wide but its tiles stop at 108. */
  lemma StripGapExample()
    ensures var f := ComposeModern(107, 60, seq(10, _ => Color(0, 0, 0)), 1);
      f.Ok? && f.value.strip.width == 109 && StripEnd(f.value) == 108
  {
    var palette := seq(10, _ => Color(0, 0, 0));
    var p := Pitch(109, 10);
    assert p == 10;
    assert Leftover(107, 10, 10) == 8;
    assert Tiles(107, palette, 10)[9] == Tile(90, 18, Color(0, 0, 0));
  }

  /** The part of `get_palette` after extraction: clean with the default
      tolerance, then lay out. A palette `clean_colors` refuses gives the
      image back untouched. Otherwise the aspect ratio `w / h` raises
      `ZeroDivisionError` for a zero height, and a negative size handed to
      `Image.new` raises `ValueError`; neither is caught. */
  function Decorate(w: nat, h: nat, colors: seq<Color>, border: int): (r: Result<Rendered, PaletteError>)
    ensures r == Ok(Unchanged) <==> |colors| < MinColors
    ensures |colors| >= MinColors && h == 0 ==> r == Err(DivisionByZero)
    ensures |colors| >= MinColors && h > 0 ==>
      var palette := CleanColors(colors, DefaultTolerancy).value;
      && (r.Err? <==> ComposeModern(w, h, palette, border).Err?)
      && (r.Err? ==> r.error == ComposeModern(w, h, palette, border).error)
      && (r.Ok? ==> r == Ok(Composed(ComposeModern(w, h, palette, border).value)))
    ensures r.Err? ==> r.error == DivisionByZero || (r.error.NegativeSize? && (border < 0 || r.error.width < 0))
    ensures r.Ok? && r.value.Composed? ==>
      var f := r.value.frame;
      && h > 0
      && |f.strip.tiles| == |CleanColors(colors, DefaultTolerancy).value|
      && KeptPrefix <= |f.strip.tiles| <= |colors|
      && f.fill == colors[0]
      && (forall k :: 0 <= k < |f.strip.tiles| ==> f.strip.tiles[k].color == colors[k])
      && f.canvasWidth == w + 2 * border && f.canvasHeight == h + border
      && f.imageX == border && f.imageY == border
      && f.stripX == 0 && f.stripY == h && f.strip.width == f.canvasWidth && f.strip.height == border
  {
    var palette := CleanColors(colors, DefaultTolerancy);
    if palette.None? || |palette.value| == 0 then Ok(Unchanged)
    else if h == 0 then Err(DivisionByZero)
    else
      match ComposeModern(w, h, palette.value, border)
      case Err(e) => Err(e)
      case Ok(f) => Ok(Composed(f))
  }

  /** `get_palette`: extract, then decorate. A failing extractor gives the
      image back untouched; everything after extraction is `Decorate`. */
  function GetPalette(w: nat, h: nat, strategy: Strategy, border: int): (r: Result<Rendered, PaletteError>)
    ensures Extract(w, h, strategy).Err? ==> r == Ok(Unchanged)
    ensures Extract(w, h, strategy).Ok? ==>
      (r == Ok(Unchanged) <==> |Extract(w, h, strategy).value| < MinColors)
    ensures Extract(w, h, strategy).Ok? && |Extract(w, h, strategy).value| >= MinColors && h == 0 ==>
      r == Err(DivisionByZero)
    ensures Extract(w, h, strategy).Ok? && |Extract(w, h, strategy).value| >= MinColors && h > 0 ==>
      var palette := CleanColors(Extract(w, h, strategy).value, DefaultTolerancy).value;
      && (r.Err? <==> ComposeModern(w, h, palette, border).Err?)
      && (r.Err? ==> r.error == ComposeModern(w, h, palette, border).error)
      && (r.Ok? ==> r == Ok(Composed(ComposeModern(w, h, palette, border).value)))
    ensures r.Err? ==> r.error == DivisionByZero || (r.error.NegativeSize? && (border < 0 || r.error.width < 0))
    ensures r.Ok? && r.value.Composed? ==>
      var colors := Extract(w, h, strategy).value;
      var f := r.value.frame;
      && Extract(w, h, strategy).Ok? && h > 0
      && |f.strip.tiles| == |CleanColors(colors, DefaultTolerancy).value|
      && KeptPrefix <= |f.strip.tiles| <= |colors|
      && f.fill == colors[0]
      && (forall k :: 0 <= k < |f.strip.tiles| ==> f.strip.tiles[k].color == colors[k])
      && f.canvasWidth == w + 2 * border && f.canvasHeight == h + border
      && f.imageX == border && f.imageY == border
      && f.stripX == 0 && f.stripY == h && f.strip.width == f.canvasWidth && f.strip.height == border
  {
    var colors := Extract(w, h, strategy);
    if colors.Err? then Ok(Unchanged)
    else Decorate(w, h, colors.value, border)
  }

  /** With the slice extractor every slice offering a candidate, a non-zero
      height and a small non-negative border, `get_palette` always composes
      a picture. */
  lemma SliceDiffComposes(w: nat, h: nat, thief: SliceThief, border: int)
    requires forall i :: 1 <= i < SliceCount ==> |thief.candidates(SliceBox(w, h, i))| > 0
    requires h > 0
    requires 0 <= border && 18 * border <= w
    ensures GetPalette(w, h, SliceDiff(thief), border).Ok?
    ensures GetPalette(w, h, SliceDiff(thief), border).value.Composed?
  {
    var colors := Extract(w, h, SliceDiff(thief)).value;
    var palette := CleanColors(colors, DefaultTolerancy).value;
    var n := |palette|;
    assert n - 1 <= 9;
    MulMonotone(2 * border, n - 1, 9);
    ComposeModernSucceeds(w, h, palette, border);
  }
}

=== FILE: selection.dfy ===
/** The greedy "most different colour" rule of `get_most_diff`: score every
    candidate by how many saved colours it differs from in the red channel,
    sort the scores in descending order with a stable sort, take the head. */
module Selection {
  import opened Wrappers
  import opened Colors
  import opened Errors

  /** A candidate with its score: the `{"color", "hits"}` record. */
  datatype Scored = Scored(color: Color, hits: nat)

  /** How many colours of `saved` differ from `c` by more than the red threshold. */
  function Hits(saved: seq<Color>, c: Color): (n: nat)
    ensures n <= |saved|
  {
    if |saved| == 0 then 0
    else Hits(saved[1..], c) + (if RedApart(c, saved[0]) then 1 else 0)
  }

  /** No hit means no saved colour is apart from `c`; a full count means
      every one is. */
  lemma {:induction false} HitsExtremes(saved: seq<Color>, c: Color)
    ensures Hits(saved, c) == 0 <==> forall i :: 0 <= i < |saved| ==> !RedApart(c, saved[i])
    ensures Hits(saved, c) == |saved| <==> forall i :: 0 <= i < |saved| ==> RedApart(c, saved[i])
  {
    if |saved| > 0 {
      HitsExtremes(saved[1..], c);
      assert forall i :: 1 <= i < |saved| ==> saved[i] == saved[1..][i - 1];
    }
  }

  /** Every candidate paired with its hit count, in candidate order. */
  function Scores(saved: seq<Color>, news: seq<Color>): (s: seq<Scored>)
    ensures |s| == |news|
    ensures forall i :: 0 <= i < |s| ==> s[i].color == news[i] && s[i].hits == Hits(saved, news[i])
  {
    if |news| == 0 then []
    else [Scored(news[0], Hits(saved, news[0]))] + Scores(saved, news[1..])
  }

  /** `s` is in non-increasing order of hits. */
  predicate SortedByHits(s: seq<Scored>) {
    forall i, j :: 0 <= i < j < |s| ==> s[i].hits >= s[j].hits
  }

  /** Inserts `x` in front of the first element of `t` that does not beat it,
      so that `x` precedes the elements it ties with. */
  function InsertByHits(x: Scored, t: seq<Scored>): (r: seq<Scored>)
    ensures |r| == |t| + 1
    ensures multiset(r) == multiset(t) + multiset{x}
  {
    if |t| == 0 || x.hits >= t[0].hits then [x] + t
    else
      assert t == [t[0]] + t[1..];
      [t[0]] + InsertByHits(x, t[1..])
  }

  /** Every element of the insertion is `x` or an element of `t`. */
  lemma InsertedFrom(x: Scored, t: seq<Scored>, k: int)
    requires 0 <= k < |t| + 1
    ensures InsertByHits(x, t)[k] == x || InsertByHits(x, t)[k] in t
  {
    var r := InsertByHits(x, t);
    assert r[k] in multiset(r);
  }

  /** Insertion keeps a sorted sequence sorted. */
  lemma {:induction false} InsertKeepsSorted(x: Scored, t: seq<Scored>)
    requires SortedByHits(t)
    ensures SortedByHits(InsertByHits(x, t))
  {
    if |t| == 0 || x.hits >= t[0].hits {
      var r := [x] + t;
      forall i, j | 0 <= i < j < |r|
        ensures r[i].hits >= r[j].hits
      {
        if i > 0 {
          assert r[i] == t[i - 1] && r[j] == t[j - 1];
        }
      }
    } else {
      var rest := InsertByHits(x, t[1..]);
      InsertKeepsSorted(x, t[1..]);
      var r := [t[0]] + rest;
      assert InsertByHits(x, t) == r;
      forall i, j | 0 <= i < j < |r|
        ensures r[i].hits >= r[j].hits
      {
        if i == 0 {
          InsertedFrom(x, t[1..], j - 1);
          assert r[j] == rest[j - 1];
          if r[j] != x {
            var m :| 0 <= m < |t[1..]| && t[1..][m] == r[j];
            assert t[m + 1] == r[j];
          }
        } else {
          assert r[i] == rest[i - 1] && r[j] == rest[j - 1];
        }
      }
    }
  }

  /** Python's `sorted(..., reverse=True)` on the hit count: a stable sort,
      written as insertion from the back so that an earlier element stays in
      front of later elements with the same count. */
  function SortByHits(s: seq<Scored>): (r: seq<Scored>)
    ensures |r| == |s|
    ensures multiset(r) == multiset(s)
    ensures SortedByHits(r)
  {
    if |s| == 0 then []
    else
      assert s == [s[0]] + s[1..];
      InsertKeepsSorted(s[0], SortByHits(s[1..]));
      InsertByHits(s[0], SortByHits(s[1..]))
  }

  /** `i` is the first position of a maximal hit count in `s`. */
  predicate IsFirstMax(s: seq<Scored>, i: int) {
    && 0 <= i < |s|
    && (forall j :: 0 <= j < |s| ==> s[j].hits <= s[i].hits)
    && (forall j :: 0 <= j < i ==> s[j].hits < s[i].hits)
  }

  /** A linear scan for the first maximum, independent of the sort. */
  function FirstMaxIndex(s: seq<Scored>): (i: nat)
    requires |s| > 0
    ensures IsFirstMax(s, i)
  {
    if |s| == 1 then 0
    else
      var j := FirstMaxIndex(s[1..]);
      assert forall k :: 1 <= k < |s| ==> s[k] == s[1..][k - 1];
      if s[0].hits >= s[j + 1].hits then 0 else j + 1
  }

  /** The head of the stable descending sort is the first maximum. */
  lemma {:induction false} SortHeadIsFirstMax(s: seq<Scored>)
    requires |s| > 0
    ensures SortByHits(s)[0] == s[FirstMaxIndex(s)]
  {
    if |s| == 1 {
      assert SortByHits(s[1..]) == [];
    } else {
      SortHeadIsFirstMax(s[1..]);
      var t := SortByHits(s[1..]);
      var j := FirstMaxIndex(s[1..]);
      assert t[0] == s[j + 1];
    }
  }

  /** Candidate `i` of `news` is the one the greedy rule must pick against
      `saved`: its hit count is maximal and no earlier candidate reaches it. */
  predicate IsMostDiff(saved: seq<Color>, news: seq<Color>, i: int) {
    && 0 <= i < |news|
    && (forall j :: 0 <= j < |news| ==> Hits(saved, news[j]) <= Hits(saved, news[i]))
    && (forall j :: 0 <= j < i ==> Hits(saved, news[j]) < Hits(saved, news[i]))
  }

  /** The position the greedy rule must pick from `news` against `saved`;
      `IsMostDiff` holds of exactly one position, so this is it. */
  function FirstMostDiff(saved: seq<Color>, news: seq<Color>): (i: nat)
    requires |news| > 0
    ensures IsMostDiff(saved, news, i)
  {
    FirstMaxIndex(Scores(saved, news))
  }

  /** `get_most_diff`: the head of the sorted scores, or the `IndexError` of
      an empty candidate list. */
  function MostDiff(saved: seq<Color>, news: seq<Color>): (r: Result<Scored, PaletteError>)
    ensures r.Err? <==> |news| == 0
    ensures r.Err? ==> r.error == EmptyCandidates
    ensures r.Ok? ==> r.value.color == news[FirstMostDiff(saved, news)]
    ensures r.Ok? ==> r.value.hits == Hits(saved, r.value.color) <= |saved|
  {
    var scores := Scores(saved, news);
    var sorted := SortByHits(scores);
    if |sorted| == 0 then Err(EmptyCandidates)
    else
      SortHeadIsFirstMax(scores);
      Ok(sorted[0])
  }
}

=== FILE: wrappers.dfy ===
/** Failure-carrying datatypes: `Option` for the `None` returns of the
    palette code and `Result` for its exceptions. */
module Wrappers {

  datatype Option<+T> = None | Some(value: T)

  datatype Result<+T, +E> = Ok(value: T) | Err(error: E)
}
